=== FILE: README.md ===
# Sliding-window rate limiter — Dafny model

This project models the form-submission rate limiter of a small marketing site
(`src/utils/rateLimiter.ts`) together with the in-memory key-value store with
per-entry expiry that its tests run against (`MockRateLimitStore` in
`src/utils/rateLimiter.test.ts`).

The limiter keeps at most one record per key `${keyPrefix}:${identifier}`. A
check allows a new action when no live record exists, or when the record's
`timestamp` lies at least one window in the past; otherwise it denies and
reports the remaining wait, rounded up to whole minutes, with a configured or
generated message. An update overwrites the key with `{timestamp: now,
...metadata}` and a store lifetime of one window. Enforcement runs check then
update, and throws `TOO_MANY_REQUESTS` on a denial. Four preset policies make
up `RATE_LIMIT_CONFIGS`.

Files:

- `wrappers.dfy` — `Option` and `Outcome` (a call that returns or throws).
- `numerals.dfy` — decimal rendering of the remaining minutes in the generated message, with its inverse and the reading of a number back out of a text.
- `kv_store.dfy` — the store: `get` with eviction of expired entries, `put` with an optional TTL, `clear`, `size`, and `View`, what a reader at a given instant sees.
- `rate_limiter.dfy` — policies, records, `CheckRateLimit`, `UpdateRateLimit`, `EnforceRateLimit`, the preset table.
- `properties.dfy` — lemmas relating the operations: window boundaries, independence of keys, key (non-)injectivity, message shape.
- `scenarios.dfy` — the documented scenarios, replayed on an empty store from any non-negative start instant.

Modelling decisions:

- The clock is an explicit parameter `now`, in integer milliseconds since the epoch. One call of check, update or enforce reads the clock once. The store and the limiter read the same clock.
- A policy's window is `windowMinutes * 60000` milliseconds (`windowMs`). The minutes elapsed are `(now - timestamp) / 60000`. So "elapsed < window" is compared in milliseconds, and `Math.ceil(window - elapsed)` becomes the integer ceiling of `(windowMs - elapsedMs) / 60000` (`CeilMinutes`).
- The store's TTL is carried in milliseconds, as `expirationTtl * 1000`. An update passes `windowMs`. The mock's truthiness tests are kept: a TTL of 0 gives no expiry, and an expiry instant of 0 never expires.
- Store values are decoded records (`map<string, Field>`), not JSON text. A field is `Instant(ms)` when `new Date(...)` reads it as that instant; the ISO string the limiter writes is one. Anything else is `Opaque`. An `Opaque` timestamp makes the elapsed time NaN, and NaN compares false, so the check allows. That is the code's own arithmetic, not a recovery path.
- `errorMessage || default` is modelled as "a configured, non-empty message, else the generated one".

## Model

| member | source | states |
|---|---|---|
| `Numerals.Show` | src/utils/rateLimiter.ts:47 | the number in the generated message is a non-empty digit string with no leading zero |
| `Numerals.ParseShow` | src/utils/rateLimiter.ts:47 | reading the printed number back gives the number |
| `Numerals.ShowInjective` | src/utils/rateLimiter.ts:47 | different numbers print differently |
| `Numerals.ReadBack` | src/utils/rateLimiter.ts:47 | a number printed between any text and a non-digit is read back from the result as that number |
| `Numerals.ShowBetween` | src/utils/rateLimiter.ts:47 | a number printed between a lead and a tail gives exactly the lead, a numeral with no leading zero that reads back as the number, and the tail |
| `KvStore.Get` | src/utils/rateLimiter.test.ts:9-20 | `get` returns the value exactly when the entry is live at `now`; an expired entry is evicted and the size drops by one; what any reader at `now` or later sees is unchanged |
| `KvStore.Put` | src/utils/rateLimiter.test.ts:22-25 | `put` stores the value at the key, with expiry `now + ttl` for any non-zero TTL, negative ones included (the expiry then lies in the past), and none for an absent or zero TTL; every other key keeps its entry; the size grows only for a new key |
| `KvStore.Clear` | src/utils/rateLimiter.test.ts:27-33 | after `clear` the size is 0, so no key is stored and every `get` returns null (`KvStore.GetMissing`) |
| `KvStore.GetMissing` | src/utils/rateLimiter.test.ts:9-11 | a key never written reads as null and the store is untouched |
| `KvStore.GetAfterPut` | src/utils/rateLimiter.test.ts:14-23 | after `put` with a positive TTL, `get` sees the value up to and including the expiry instant, and evicts it strictly after |
| `KvStore.GetAfterPutNoExpiry` | src/utils/rateLimiter.test.ts:23 | after `put` with no TTL or TTL 0 the value never expires |
| `KvStore.PutFrame` | src/utils/rateLimiter.test.ts:22-25 | a `put` changes no `get` at any other key, at any instant |
| `KvStore.PutAfterGet` | src/utils/rateLimiter.test.ts:9-25 | a `get` (with its eviction) followed by a `put` at the same key leaves the same store as the `put` alone |
| `RateLimiter.CeilMinutes` | src/utils/rateLimiter.ts:42-44 | the remaining minutes are the least whole number of minutes covering the remaining time; at least 1 when time remains |
| `RateLimiter.MinutesTail` | src/utils/rateLimiter.ts:47 | the unit part of the generated message starts with a space, so the number in front of it is delimited |
| `RateLimiter.DenialMessage` | src/utils/rateLimiter.ts:45-47 | the denial message is never empty, so the `Rate limit exceeded` fallback of `enforceRateLimit` is never taken |
| `RateLimiter.DenialMessageChoice` | src/utils/rateLimiter.ts:45-47 | a configured non-empty message is used verbatim; with none, or an empty one, the message starts "Please wait " and the number after it reads back as the remaining minutes |
| `RateLimiter.CheckRateLimit` | src/utils/rateLimiter.ts:27-58 | denies exactly when a live record at `keyPrefix:identifier` has a date timestamp less than a window ago; an allowed result carries no wait and no message; a denial carries the ceiling of the remaining minutes (at least 1) and the configured-or-generated message; the store only loses an expired entry at that key, invisible to any later reader |
| `RateLimiter.NewRecord` | src/utils/rateLimiter.ts:70-73 | the written record has the metadata's fields plus `timestamp`; metadata fields win; without a metadata `timestamp` it holds `now` |
| `RateLimiter.UpdateRateLimit` | src/utils/rateLimiter.ts:60-78 | writes exactly the key `keyPrefix:identifier`, with `{timestamp: now, ...metadata}` and expiry `now + window` (none for a zero window); every other key is unchanged |
| `RateLimiter.EnforceRateLimit` | src/utils/rateLimiter.ts:80-95 | throws exactly when the check denies; the error is `TOO_MANY_REQUESTS` with the check's non-empty message and the store is unchanged; otherwise the store is exactly what the update alone would leave |
| `RateLimiter.PresetPrefix` | src/utils/rateLimiter.ts:99-127 | every preset prefix is free of colons |
| `RateLimiter.PresetWindowMinutes` | src/utils/rateLimiter.ts:99-127 | every preset window is positive |
| `RateLimiter.PresetMessage` | src/utils/rateLimiter.ts:99-127 | every preset has a non-empty configured message |
| `RateLimiter.PresetConfig` | src/utils/rateLimiter.ts:99-127 | each preset has a positive whole-minute window, a colon-free prefix and a non-empty message |
| `RateLimiter.PresetPrefixesDistinct` | src/utils/rateLimiter.ts:99-127 | no two presets share a prefix |
| `RateLimiter.DefaultMessage` | src/utils/rateLimiter.ts:45-47 | the generated message is exactly "Please wait 1 minute before trying again." when, and only when, one minute remains, and ends in " minutes before trying again." for every other count |
| `RateLimiter.DefaultMessageReadsBack` | src/utils/rateLimiter.ts:47 | the generated message starts "Please wait " and the number that follows reads back as exactly the remaining minutes, for every count |
| `RateLimiter.DefaultMessageText` | src/utils/rateLimiter.ts:47 | the generated message is exactly "Please wait ", then the remaining minutes as a decimal numeral with no leading zero, then " minute before trying again." for one minute or " minutes before trying again." otherwise, with nothing in between |
| `RateLimiterProperties.DefaultMessageInjective` | src/utils/rateLimiter.ts:45-47 | different remaining times give different generated messages |
| `RateLimiterProperties.KeyInjective` | src/utils/rateLimiter.ts:31 | with colon-free prefixes the key determines prefix and identifier |
| `RateLimiterProperties.KeyCollision` | src/utils/rateLimiter.ts:31 | in general keys collide: prefix `a` with id `b:c` and prefix `a:b` with id `c` |
| `RateLimiterProperties.CheckUnknownAllowed` | src/utils/rateLimiter.ts:31-34 | no record at the key means allowed with no wait, no message, no store change |
| `RateLimiterProperties.StaleRecordAllowed` | src/utils/rateLimiter.ts:41-57 | a live record a full window old allows and stays in the store |
| `RateLimiterProperties.CheckRepeatable` | src/utils/rateLimiter.ts:27-58 | a second check at the same instant answers the same and changes nothing |
| `RateLimiterProperties.CheckReadsOnlyItsKey` | src/utils/rateLimiter.ts:31-32 | two stores that agree at the key give the same check answer |
| `RateLimiterProperties.UpdateThenCheck` | src/utils/rateLimiter.ts:38-53 | after an update at `t`, a check at `later` denies exactly when `later - t < window`, with the ceiling of the remaining minutes; for every window, zero and negative ones included |
| `RateLimiterProperties.EnforceWindow` | src/utils/rateLimiter.ts:85-94 | after a successful enforce at `t`, another enforce on the key fails exactly while `later - t < window` |
| `RateLimiterProperties.EnforceIndependent` | src/utils/rateLimiter.ts:80-95 | an enforce changes no check on a different key |
| `RateLimiterProperties.PresetKeysDistinct` | src/utils/rateLimiter.ts:99-127 | two different presets, or two identifiers, never share a key |
| `RateLimiterProperties.PresetsIndependent` | src/utils/rateLimiter.ts:99-127 | an enforce under one preset changes no check under another preset or identifier |
| `RateLimiterProperties.MetadataTimestampOverrides` | src/utils/rateLimiter.ts:70-73 | a metadata `timestamp` replaces the written one; one that is not a date leaves the key unthrottled |
| `RateLimiterScenarios.FirstRequestAllowed` | src/utils/rateLimiter.test.ts:57-63 | an empty store allows with no wait and no message |
| `RateLimiterScenarios.BlockedWithinWindow` | src/utils/rateLimiter.test.ts:65-80 | three minutes into a five-minute window: denied, 2 minutes, configured message |
| `RateLimiterScenarios.AllowedAfterWindow` | src/utils/rateLimiter.test.ts:82-95 | six minutes into a five-minute window: allowed |
| `RateLimiterScenarios.MessageForThree` | src/utils/rateLimiter.test.ts:107 | the generated message for 3 is "Please wait 3 minutes before trying again." |
| `RateLimiterScenarios.MessageForOne` | src/utils/rateLimiter.test.ts:120 | the generated message for 1 is "Please wait 1 minute before trying again." |
| `RateLimiterScenarios.PluralMessageScenario` | src/utils/rateLimiter.test.ts:97-108 | no configured message, two minutes in: the plural generated message for 3 minutes |
| `RateLimiterScenarios.SingularMessageScenario` | src/utils/rateLimiter.test.ts:110-121 | no configured message, four and a half minutes in: the singular generated message |
| `RateLimiterScenarios.TestKey` | src/utils/rateLimiter.test.ts:131 | the test policy's key for the test address is `test_rate_limit:test@example.com` |
| `RateLimiterScenarios.UpdateStoresMetadata` | src/utils/rateLimiter.test.ts:125-138 | the stored record holds the timestamp and the metadata fields |
| `RateLimiterScenarios.RecordTimeToLive` | src/utils/rateLimiter.test.ts:140-152 | the record is present a second before its expiry and gone a second after |
| `RateLimiterScenarios.SecondEnforceThrows` | src/utils/rateLimiter.test.ts:164-189 | a second enforce at once throws `TOO_MANY_REQUESTS` with the configured message |
| `RateLimiterScenarios.IdentifiersIndependent` | src/utils/rateLimiter.test.ts:240-256 | enforcing one address leaves another free, and the first stays blocked |
| `RateLimiterScenarios.PrefixesIndependent` | src/utils/rateLimiter.test.ts:258-270 | the same identifier under another prefix is free |
| `RateLimiterScenarios.ShortWindow` | src/utils/rateLimiter.test.ts:272-288 | a six-second window blocks at once and frees seven seconds later |
| `RateLimiterScenarios.PresetWindows` | src/utils/rateLimiter.test.ts:205-236 | the preset windows are 5, 2, 10 and 5 minutes |
| `RateLimiterScenarios.PresetPrefixes` | src/utils/rateLimiter.test.ts:205-236 | the preset prefixes are as listed in the table |
| `RateLimiterScenarios.PresetMessages` | src/utils/rateLimiter.test.ts:205-236 | the preset messages are as listed in the table |

## Left out

- Escalating or block mode, a store `delete`, and recovery from malformed records: none of them exists in the limiter's code.
- JSON serialisation and ISO-8601 date formatting and parsing: records are stored decoded. An unparsable stored string, on which `JSON.parse` would throw, cannot occur in the model.
- Floating-point minutes: windows are whole milliseconds and the ceiling is integer arithmetic. Float rounding in `(now - t) / 60000` and in `Math.ceil` is not modelled.
- Async execution and the race between a check and the following write: each call is one atomic step over the store.
- The production key-value store behind `RateLimitStore`: the limiter runs over the mock store's semantics only.
- `ActionError` carries only its code and message.
- The form handlers in `src/actions/index.ts` and the build and provisioning files are not part of this model.
- `KvStore.GetAfterPut` is stated for a positive TTL and a non-negative clock; a negative TTL, or an expiry instant of exactly 0, is covered only by the contracts of `KvStore.Get` and `KvStore.Put`.

=== FILE: kv_store.dfy ===
/**
 * The in-memory key-value store with per-entry expiry that the limiter runs
 * against (`MockRateLimitStore`). Time is an explicit `now` in milliseconds,
 * and the time-to-live is given in milliseconds (the store's
 * `expirationTtl * 1000`).
 */
module KvStore {
  import opened Wrappers

  /** A stored value and its expiry instant; `None` never expires. */
  datatype Entry<V> = Entry(value: V, expiry: Option<int>)

  type Store<V> = map<string, Entry<V>>

  /** The result of `get`: the value read and the store after any eviction. */
  datatype Got<V> = Got(value: Option<V>, store: Store<V>)

  /**
   * An entry is expired at `now` when it has a truthy expiry (a JavaScript
   * number other than 0) that `now` has passed strictly.
   */
  predicate Expired<V>(e: Entry<V>, now: int) {
    e.expiry.Some? && e.expiry.value != 0 && now > e.expiry.value
  }

  /** What a reader at time `now` can see: every entry not yet expired. */
  function View<V>(s: Store<V>, now: int): map<string, V> {
    map k | k in s && !Expired(s[k], now) :: s[k].value
  }

  /** The number of stored entries, expired or not. */
  function Size<V>(s: Store<V>): nat {
    |s|
  }

  /**
   * `get`: returns the live value at `key`, and evicts the entry when it has
   * expired. What any reader at `now` or later can see is unchanged.
   */
  function Get<V>(s: Store<V>, key: string, now: int): (g: Got<V>)
    ensures key in View(s, now) ==> g.value == Some(View(s, now)[key])
    ensures key !in View(s, now) ==> g.value == None
    ensures forall t :: now <= t ==> View(g.store, t) == View(s, t)
    ensures forall k :: k != key ==> (k in g.store <==> k in s)
    ensures forall k :: k in g.store ==> k in s && g.store[k] == s[k]
    ensures key in s && key !in View(s, now) ==> key !in g.store && Size(g.store) == Size(s) - 1
    ensures key !in s || key in View(s, now) ==> g.store == s
  {
    if key !in s then Got(None, s)
    else if Expired(s[key], now) then Got(None, s - {key})
    else Got(Some(s[key].value), s)
  }

  /** The expiry `put` gives an entry: a falsy (absent or zero) TTL means none. */
  function ExpiryFor(ttlMs: Option<int>, now: int): Option<int> {
    if ttlMs.Some? && ttlMs.value != 0 then Some(now + ttlMs.value) else None
  }

  /** `put`: overwrites the entry at `key`; every other key is left alone. */
  function Put<V>(s: Store<V>, key: string, value: V, ttlMs: Option<int>, now: int): (s': Store<V>)
    ensures s'.Keys == s.Keys + {key}
    ensures s'[key].value == value
    ensures ttlMs.Some? && ttlMs.value != 0 ==> s'[key].expiry == Some(now + ttlMs.value)
    ensures ttlMs == None || ttlMs == Some(0) ==> s'[key].expiry == None
    ensures forall k :: k in s && k != key ==> s'[k] == s[k]
    ensures Size(s') == if key in s then Size(s) else Size(s) + 1
  {
    s[key := Entry(value, ExpiryFor(ttlMs, now))]
  }

  /** `clear`: the store is emptied. */
  function Clear<V>(): (s: Store<V>)
    ensures Size(s) == 0
  {
    map[]
  }

  /** A `get` before a `put` at the same key does not change what the `put` leaves. */
  lemma PutAfterGet<V>(s: Store<V>, key: string, now: int, value: V, ttlMs: Option<int>)
    ensures Put(Get(s, key, now).store, key, value, ttlMs, now) == Put(s, key, value, ttlMs, now)
  {
  }

  /** A key that was never written reads as absent and the store is untouched. */
  lemma GetMissing<V>(s: Store<V>, key: string, now: int)
    requires key !in s
    ensures Get(s, key, now) == Got(None, s)
  {
  }

  /**
   * After `put` with a positive TTL at `t0`, `get` sees the value up to and
   * including the instant `t0 + ttl`, and evicts it at any later instant.
   */
  lemma GetAfterPut<V>(s: Store<V>, key: string, value: V, ttlMs: int, t0: int, now: int)
    requires 0 <= t0 && 0 < ttlMs
    ensures now <= t0 + ttlMs ==> Get(Put(s, key, value, Some(ttlMs), t0), key, now).value == Some(value)
    ensures now > t0 + ttlMs ==> Get(Put(s, key, value, Some(ttlMs), t0), key, now).value == None
    ensures now > t0 + ttlMs ==> key !in Get(Put(s, key, value, Some(ttlMs), t0), key, now).store
  {
  }

  /** After `put` with no TTL or a TTL of 0, `get` sees the value forever. */
  lemma GetAfterPutNoExpiry<V>(s: Store<V>, key: string, value: V, ttlMs: Option<int>, t0: int, now: int)
    requires ttlMs == None || ttlMs == Some(0)
    ensures Get(Put(s, key, value, ttlMs, t0), key, now).value == Some(value)
  {
  }

  /** A `put` is invisible at every other key, at every instant. */
  lemma PutFrame<V>(s: Store<V>, key: string, value: V, ttlMs: Option<int>, t0: int, other: string, now: int)
    requires other != key
    ensures Get(Put(s, key, value, ttlMs, t0), other, now).value == Get(s, other, now).value
  {
  }
}

=== FILE: numerals.dfy ===
/** Decimal rendering of natural numbers, as a template literal `${n}` prints an integer. */
module Numerals {

  predicate IsDigit(c: char) {
    '0' <= c <= '9'
  }

  predicate AllDigits(s: string) {
    forall i :: 0 <= i < |s| ==> IsDigit(s[i])
  }

  function DigitChar(d: nat): (c: char)
    requires d < 10
    ensures IsDigit(c)
  {
    ('0' as int + d) as char
  }

  function DigitValue(c: char): (d: nat)
    requires IsDigit(c)
    ensures d < 10
    ensures DigitChar(d) == c
  {
    c as int - '0' as int
  }

  /** The shortest decimal numeral of `n`: digits only, no leading zero. */
  function Show(n: nat): (s: string)
    ensures |s| >= 1
    ensures AllDigits(s)
    ensures s[0] == '0' ==> n == 0
    ensures n < 10 <==> |s| == 1
  {
    if n < 10 then [DigitChar(n)] else Show(n / 10) + [DigitChar(n % 10)]
  }

  /** Reads a string of decimal digits back as a number (most significant digit first). */
  function Parse(s: string): nat
    requires AllDigits(s)
  {
    if |s| == 0 then 0 else Parse(s[..|s| - 1]) * 10 + DigitValue(s[|s| - 1])
  }

  /** Showing a number and reading it back gives the number. */
  lemma {:induction false} ParseShow(n: nat)
    ensures Parse(Show(n)) == n
  {
    if n >= 10 {
      var s := Show(n);
      assert s[..|s| - 1] == Show(n / 10);
      ParseShow(n / 10);
    }
  }

  /** Distinct numbers are shown differently. */
  lemma ShowInjective(m: nat, n: nat)
    ensures Show(m) == Show(n) ==> m == n
  {
    ParseShow(m);
    ParseShow(n);
  }

  /** The number of leading digits of a string. */
  function DigitRun(s: string): (r: nat)
    ensures r <= |s|
    ensures AllDigits(s[..r])
    ensures r < |s| ==> !IsDigit(s[r])
  {
    if |s| == 0 || !IsDigit(s[0]) then 0
    else
      var r := 1 + DigitRun(s[1..]);
      assert s[..r] == [s[0]] + s[1..][..r - 1];
      r
  }

  /**
   * True when `m` starts with `lead` and the digits that follow it read as `n`:
   * the number a reader sees in the text.
   */
  predicate ReadsBack(m: string, lead: string, n: nat) {
    && |lead| <= |m|
    && m[..|lead|] == lead
    && var rest := m[|lead|..];
      Parse(rest[..DigitRun(rest)]) == n
  }

  /** A numeral followed by a non-digit is delimited: its length is the digit run. */
  lemma {:induction false} DigitRunConcat(a: string, t: string)
    requires AllDigits(a)
    requires |t| > 0 && !IsDigit(t[0])
    ensures DigitRun(a + t) == |a|
  {
    if |a| > 0 {
      assert (a + t)[1..] == a[1..] + t;
      DigitRunConcat(a[1..], t);
    }
  }

  /** A number shown between a lead and a non-digit is read back from the text. */
  lemma {:induction false} ReadBack(lead: string, n: nat, t: string)
    requires |t| > 0 && !IsDigit(t[0])
    ensures ReadsBack(lead + Show(n) + t, lead, n)
  {
    var m := lead + Show(n) + t;
    assert m[..|lead|] == lead;
    assert m[|lead|..] == Show(n) + t;
    DigitRunConcat(Show(n), t);
    assert (Show(n) + t)[..|Show(n)|] == Show(n);
    ParseShow(n);
  }

  /**
   * Two strings that share a prefix, continue with a digit string, and then
   * with a non-digit, agree on the digit strings.
   */
  lemma DigitsBetween(p: string, a: string, ta: string, b: string, tb: string)
    requires AllDigits(a) && AllDigits(b)
    requires |ta| > 0 && |tb| > 0 && !IsDigit(ta[0]) && !IsDigit(tb[0])
    requires p + a + ta == p + b + tb
    ensures a == b
  {
    assert (p + a + ta)[|p|..] == a + ta;
    assert (p + b + tb)[|p|..] == b + tb;
    DigitRunConcat(a, ta);
    DigitRunConcat(b, tb);
    assert a == (a + ta)[..|a|];
    assert b == (b + tb)[..|b|];
  }

  /**
   * True when `m` is exactly `lead`, then the numeral of `n` as `Show` prints
   * it (digits only, no leading zero), then `tail`.
   */
  predicate ShowsBetween(m: string, lead: string, n: nat, tail: string) {
    && |lead| + |tail| < |m|
    && m[..|lead|] == lead
    && m[|m| - |tail|..] == tail
    && var digits := m[|lead|..|m| - |tail|];
      && AllDigits(digits)
      && (digits[0] == '0' ==> |digits| == 1)
      && Parse(digits) == n
  }

  /** Printing `n` between a lead and a tail gives a text that shows `n` there. */
  lemma ShowBetween(lead: string, n: nat, tail: string)
    ensures ShowsBetween(lead + Show(n) + tail, lead, n, tail)
  {
    var m := lead + Show(n) + tail;
    assert m[..|lead|] == lead;
    assert m[|m| - |tail|..] == tail;
    assert m[|lead|..|m| - |tail|] == Show(n);
    ParseShow(n);
  }
}

=== FILE: properties.dfy ===
/** Properties relating the limiter's operations to each other and to the store. */
module RateLimiterProperties {
  import opened Wrappers
  import Numerals
  import KvStore
  import opened RateLimiter

  /** Different remaining times give different generated messages. */
  lemma DefaultMessageInjective(a: nat, b: nat)
    ensures DefaultMessage(a) == DefaultMessage(b) ==> a == b
  {
    if DefaultMessage(a) == DefaultMessage(b) {
      Numerals.DigitsBetween("Please wait ", Numerals.Show(a), MinutesTail(a), Numerals.Show(b), MinutesTail(b));
      Numerals.ShowInjective(a, b);
    }
  }

  /** Keys built from colon-free prefixes determine their prefix and identifier. */
  lemma KeyInjective(p1: string, id1: string, p2: string, id2: string)
    requires ':' !in p1 && ':' !in p2
    ensures Key(p1, id1) == Key(p2, id2) ==> p1 == p2 && id1 == id2
  {
    if Key(p1, id1) == Key(p2, id2) {
      var k := Key(p1, id1);
      assert k[|p1|] == ':' && k[|p2|] == ':';
      assert p1 == k[..|p1|] == p2;
      assert id1 == k[|p1| + 1..] == id2;
    }
  }

  /** In general keys collide: a colon may sit in the prefix or in the identifier. */
  lemma KeyCollision()
    ensures Key("a", "b:c") == Key("a:b", "c")
  {
  }

  /** An identifier with no record at its key is allowed, with no wait and no message. */
  lemma CheckUnknownAllowed(s: Store, now: int, identifier: string, config: Config)
    requires Key(config.keyPrefix, identifier) !in s
    ensures CheckRateLimit(s, now, identifier, config) == Checked(Allowed, s)
  {
  }

  /**
   * A record a full window old allows a new action, and the check leaves the
   * stale record in the store.
   */
  lemma StaleRecordAllowed(s: Store, now: int, identifier: string, config: Config, t: int)
    requires Key(config.keyPrefix, identifier) in s
    requires !KvStore.Expired(s[Key(config.keyPrefix, identifier)], now)
    requires LastSubmission(s[Key(config.keyPrefix, identifier)].value) == Some(t)
    requires now - t >= config.windowMs
    ensures CheckRateLimit(s, now, identifier, config).result == Allowed
    ensures CheckRateLimit(s, now, identifier, config).store == s
  {
  }

  /** Checking twice answers the same: the first check changes nothing a later one reads. */
  lemma CheckRepeatable(s: Store, now: int, identifier: string, config: Config)
    ensures var c := CheckRateLimit(s, now, identifier, config);
      CheckRateLimit(c.store, now, identifier, config) == c
  {
  }

  /**
   * After an update at `t`, a check at `later` denies exactly while less than
   * a window has passed, and then asks for the remaining time rounded up to
   * whole minutes.
   */
  lemma UpdateThenCheck(s: Store, t: int, identifier: string, config: Config, metadata: Record, later: int)
    requires "timestamp" !in metadata
    ensures var r := CheckRateLimit(UpdateRateLimit(s, t, identifier, config, metadata), later, identifier, config).result;
      && (!r.allowed <==> later - t < config.windowMs)
      && (!r.allowed ==> r.remainingMinutes == Some(CeilMinutes(config.windowMs - (later - t))))
  {
  }

  /**
   * After a successful enforce at `t`, another enforce on the same key fails
   * exactly while less than a window has passed.
   */
  lemma EnforceWindow(s: Store, t: int, identifier: string, config: Config, metadata: Record, later: int, metadata2: Record)
    requires "timestamp" !in metadata
    requires EnforceRateLimit(s, t, identifier, config, metadata).outcome.Pass?
    ensures var s1 := EnforceRateLimit(s, t, identifier, config, metadata).store;
      EnforceRateLimit(s1, later, identifier, config, metadata2).outcome.Fail? <==> later - t < config.windowMs
  {
  }

  /** An enforce on one key changes no check on any other key. */
  lemma EnforceIndependent(s: Store, t: int, id1: string, c1: Config, metadata: Record, later: int, id2: string, c2: Config)
    requires Key(c1.keyPrefix, id1) != Key(c2.keyPrefix, id2)
    ensures var s1 := EnforceRateLimit(s, t, id1, c1, metadata).store;
      CheckRateLimit(s1, later, id2, c2).result == CheckRateLimit(s, later, id2, c2).result
  {
    var s1 := EnforceRateLimit(s, t, id1, c1, metadata).store;
    var k2 := Key(c2.keyPrefix, id2);
    assert k2 in s1 <==> k2 in s;
    assert k2 in s ==> s1[k2] == s[k2];
    CheckReadsOnlyItsKey(s, s1, later, id2, c2);
  }

  /** A check's answer depends only on what is visible at its own key. */
  lemma CheckReadsOnlyItsKey(s: Store, s': Store, now: int, identifier: string, config: Config)
    requires var key := Key(config.keyPrefix, identifier);
      && (key in s <==> key in s')
      && (key in s ==> s[key] == s'[key])
    ensures CheckRateLimit(s, now, identifier, config).result == CheckRateLimit(s', now, identifier, config).result
  {
    var key := Key(config.keyPrefix, identifier);
    assert key in KvStore.View(s, now) <==> key in KvStore.View(s', now);
  }

  /** Two preset policies, or two identifiers, never share a key. */
  lemma PresetKeysDistinct(p: Preset, id1: string, q: Preset, id2: string)
    requires p != q || id1 != id2
    ensures Key(PresetConfig(p).keyPrefix, id1) != Key(PresetConfig(q).keyPrefix, id2)
  {
    PresetPrefixesDistinct(p, q);
    KeyInjective(PresetConfig(p).keyPrefix, id1, PresetConfig(q).keyPrefix, id2);
  }

  /** So an enforce under one preset never changes a check under another preset or identifier. */
  lemma PresetsIndependent(s: Store, t: int, p: Preset, id1: string, metadata: Record, later: int, q: Preset, id2: string)
    requires p != q || id1 != id2
    ensures var s1 := EnforceRateLimit(s, t, id1, PresetConfig(p), metadata).store;
      CheckRateLimit(s1, later, id2, PresetConfig(q)).result == CheckRateLimit(s, later, id2, PresetConfig(q)).result
  {
    PresetKeysDistinct(p, id1, q, id2);
    EnforceIndependent(s, t, id1, PresetConfig(p), metadata, later, id2, PresetConfig(q));
  }

  /**
   * Metadata is merged after the timestamp, so a metadata `timestamp` replaces
   * it; one that does not read as a date leaves the key unthrottled.
   */
  lemma MetadataTimestampOverrides(s: Store, t: int, identifier: string, config: Config, metadata: Record, later: int)
    requires "timestamp" in metadata
    ensures var rec := UpdateRateLimit(s, t, identifier, config, metadata)[Key(config.keyPrefix, identifier)].value;
      rec["timestamp"] == metadata["timestamp"]
    ensures metadata["timestamp"].Opaque? ==>
      CheckRateLimit(UpdateRateLimit(s, t, identifier, config, metadata), later, identifier, config).result.allowed
  {
  }
}

=== FILE: rate_limiter.dfy ===
/**
 * The single-slot sliding-window rate limiter (`RateLimiter`): at most one
 * accepted action per key within a window, each accepted action restarting
 * the window. Every call is one atomic step over the store, taking the clock
 * reading `now` in milliseconds.
 */
module RateLimiter {
  import opened Wrappers
  import Numerals
  import KvStore

  const MsPerMinute := 60000

  /**
   * A policy (`RateLimitConfig`). The window is `windowMinutes * 60000`
   * milliseconds; `errorMessage` is the optional configured denial message.
   */
  datatype Config = Config(windowMs: int, keyPrefix: string, errorMessage: Option<string>)

  /**
   * A field of a stored record. `Instant(ms)` is a value that `new Date(...)`
   * reads as that instant (the ISO string the limiter writes is one);
   * `Opaque` is any other value, which reads as an invalid date.
   */
  datatype Field = Instant(ms: int) | Opaque(text: string)

  /** A stored record (the decoded JSON object) and caller metadata alike. */
  type Record = map<string, Field>

  type Store = KvStore.Store<Record>

  /** The answer of a check (`RateLimitResult`). */
  datatype RateLimitResult = RateLimitResult(allowed: bool, remainingMinutes: Option<int>, errorMessage: Option<string>)

  const Allowed := RateLimitResult(true, None, None)

  datatype ErrorCode = TooManyRequests

  /** The error `enforceRateLimit` throws (`ActionError`). */
  datatype ActionError = ActionError(code: ErrorCode, message: string)

  datatype Checked = Checked(result: RateLimitResult, store: Store)

  datatype Enforced = Enforced(outcome: Outcome<ActionError>, store: Store)

  /** The store key of an identifier under a policy: `${keyPrefix}:${identifier}`. */
  function Key(prefix: string, identifier: string): string {
    prefix + ":" + identifier
  }

  /**
   * The instant of the last accepted action held in a record, when its
   * `timestamp` field reads as a date.
   */
  function LastSubmission(rec: Record): Option<int> {
    if "timestamp" in rec && rec["timestamp"].Instant? then Some(rec["timestamp"].ms) else None
  }

  /** `Math.ceil(ms / 60000)`: the whole minutes needed to cover `ms` milliseconds. */
  function CeilMinutes(ms: int): (m: int)
    ensures (m - 1) * MsPerMinute < ms <= m * MsPerMinute
    ensures ms > 0 ==> m >= 1
  {
    (ms + MsPerMinute - 1) / MsPerMinute
  }

  /**
   * The generated denial message: "Please wait N minute before trying again."
   * for N = 1, and "minutes" for every other N.
   */
  function DefaultMessage(n: nat): (message: string)
    ensures n == 1 <==> message == "Please wait 1 minute before trying again."
    ensures n != 1 ==> |message| >= 29 && message[|message| - 29..] == " minutes before trying again."
  {
    GeneratedText(n);
    "Please wait " + Numerals.Show(n) + MinutesTail(n)
  }

  /** The words after the number: singular for one minute, plural otherwise. */
  function MinutesTail(n: nat): (tail: string)
    ensures |tail| > 0 && tail[0] == ' '
  {
    if n != 1 then " minutes before trying again." else " minute before trying again."
  }

  /** The generated text is the singular sentence for one minute and ends in the plural words otherwise. */
  lemma GeneratedText(n: nat)
    ensures var m := "Please wait " + Numerals.Show(n) + MinutesTail(n);
      && (n == 1 <==> m == "Please wait 1 minute before trying again.")
      && (n != 1 ==> |m| >= 29 && m[|m| - 29..] == " minutes before trying again.")
  {
    if n == 1 {
      SingularText();
    } else {
      PluralText(n);
    }
  }

  /** The generated text for one minute, as a literal. */
  lemma SingularText()
    ensures "Please wait " + Numerals.Show(1) + MinutesTail(1) == "Please wait 1 minute before trying again."
  {
    var digits, tail := Numerals.Show(1), MinutesTail(1);
    assert digits == "1";
    assert tail == " minute before trying again.";
    LiteralConcat();
  }

  /** Joins the three literals of the singular message; kept apart so the solver compares them alone. */
  lemma LiteralConcat()
    ensures "Please wait " + "1" + " minute before trying again." == "Please wait 1 minute before trying again."
  {
  }

  /** The generated text for any other count: plural, hence not the singular sentence. */
  lemma PluralText(n: nat)
    requires n != 1
    ensures var m := "Please wait " + Numerals.Show(n) + MinutesTail(n);
      && m != "Please wait 1 minute before trying again."
      && |m| >= 29 && m[|m| - 29..] == " minutes before trying again."
  {
    var head := "Please wait " + Numerals.Show(n);
    var tail := MinutesTail(n);
    assert tail == " minutes before trying again." && |tail| == 29;
    assert (head + tail)[|head + tail| - |tail|..] == tail;
    assert |head + tail| >= 42;
    assert |"Please wait 1 minute before trying again."| == 41;
  }

  /** The generated message shows the remaining minutes: reading its number back gives `n`. */
  lemma DefaultMessageReadsBack(n: nat)
    ensures Numerals.ReadsBack(DefaultMessage(n), "Please wait ", n)
  {
    Numerals.ReadBack("Please wait ", n, MinutesTail(n));
  }

  /**
   * The generated message is exactly "Please wait ", the count as a plain
   * decimal numeral, and the singular or plural words, with nothing between.
   */
  lemma DefaultMessageText(n: nat)
    ensures Numerals.ShowsBetween(DefaultMessage(n), "Please wait ", n,
      if n == 1 then " minute before trying again." else " minutes before trying again.")
  {
    Numerals.ShowBetween("Please wait ", n, MinutesTail(n));
  }

  /** The denial message: the configured one unless it is missing or empty (`||`). */
  function DenialMessage(config: Config, remaining: nat): (message: string)
    ensures message != ""
  {
    if config.errorMessage.Some? && config.errorMessage.value != "" then config.errorMessage.value
    else DefaultMessage(remaining)
  }

  /**
   * A configured, non-empty message is shown verbatim; without one, the
   * message names the remaining minutes.
   */
  lemma DenialMessageChoice(config: Config, remaining: nat)
    ensures config.errorMessage.Some? && config.errorMessage.value != "" ==>
      DenialMessage(config, remaining) == config.errorMessage.value
    ensures config.errorMessage == None || config.errorMessage == Some("") ==>
      Numerals.ReadsBack(DenialMessage(config, remaining), "Please wait ", remaining)
  {
    DefaultMessageReadsBack(remaining);
  }

  /**
   * True when a live record blocks a new action at `now`: its last accepted
   * action lies less than a window ago. A timestamp that is not a date makes
   * the elapsed time NaN, and a comparison with NaN is false.
   */
  predicate Blocks(rec: Record, now: int, config: Config) {
    LastSubmission(rec).Some? && now - LastSubmission(rec).value < config.windowMs
  }

  /** `checkRateLimit`: decides whether a new action by `identifier` is allowed. */
  function CheckRateLimit(s: Store, now: int, identifier: string, config: Config): (c: Checked)
    ensures var key := Key(config.keyPrefix, identifier);
      !c.result.allowed <==> key in KvStore.View(s, now) && Blocks(KvStore.View(s, now)[key], now, config)
    ensures c.result.allowed ==> c.result == Allowed
    ensures !c.result.allowed ==>
      var rec := KvStore.View(s, now)[Key(config.keyPrefix, identifier)];
      var left := config.windowMs - (now - LastSubmission(rec).value);
      && c.result.remainingMinutes.Some?
      && var m := c.result.remainingMinutes.value;
      && m >= 1
      && (m - 1) * MsPerMinute < left <= m * MsPerMinute
      && c.result.errorMessage == Some(DenialMessage(config, m))
    ensures forall t :: now <= t ==> KvStore.View(c.store, t) == KvStore.View(s, t)
    ensures forall k :: k in c.store ==> k in s && c.store[k] == s[k]
    ensures forall k :: k in s && k != Key(config.keyPrefix, identifier) ==> k in c.store
    ensures !c.result.allowed ==> c.store == s
  {
    var got := KvStore.Get(s, Key(config.keyPrefix, identifier), now);
    var result :=
      if got.value.Some? && Blocks(got.value.value, now, config) then
        var remaining := CeilMinutes(config.windowMs - (now - LastSubmission(got.value.value).value));
        RateLimitResult(false, Some(remaining), Some(DenialMessage(config, remaining)))
      else
        Allowed;
    Checked(result, got.store)
  }

  /** The record `updateRateLimit` writes: `{timestamp: now, ...metadata}`. */
  function NewRecord(now: int, metadata: Record): (r: Record)
    ensures r.Keys == metadata.Keys + {"timestamp"}
    ensures forall f :: f in metadata ==> r[f] == metadata[f]
    ensures "timestamp" !in metadata ==> LastSubmission(r) == Some(now)
  {
    map["timestamp" := Instant(now)] + metadata
  }

  /**
   * `updateRateLimit`: overwrites the key with a fresh record whose lifetime
   * is one window; no other key changes.
   */
  function UpdateRateLimit(s: Store, now: int, identifier: string, config: Config, metadata: Record): (s': Store)
    ensures s'.Keys == s.Keys + {Key(config.keyPrefix, identifier)}
    ensures s'[Key(config.keyPrefix, identifier)].value.Keys == metadata.Keys + {"timestamp"}
    ensures forall f :: f in metadata ==> s'[Key(config.keyPrefix, identifier)].value[f] == metadata[f]
    ensures "timestamp" !in metadata ==> LastSubmission(s'[Key(config.keyPrefix, identifier)].value) == Some(now)
    ensures config.windowMs != 0 ==> s'[Key(config.keyPrefix, identifier)].expiry == Some(now + config.windowMs)
    ensures config.windowMs == 0 ==> s'[Key(config.keyPrefix, identifier)].expiry == None
    ensures forall k :: k in s && k != Key(config.keyPrefix, identifier) ==> s'[k] == s[k]
  {
    KvStore.Put(s, Key(config.keyPrefix, identifier), NewRecord(now, metadata), Some(config.windowMs), now)
  }

  /**
   * `enforceRateLimit`: a denied check throws `TOO_MANY_REQUESTS` with the
   * check's message and writes nothing; an allowed one records the action.
   */
  function EnforceRateLimit(s: Store, now: int, identifier: string, config: Config, metadata: Record): (e: Enforced)
    ensures var key := Key(config.keyPrefix, identifier);
      e.outcome.Fail? <==> key in KvStore.View(s, now) && Blocks(KvStore.View(s, now)[key], now, config)
    ensures e.outcome.Fail? ==> e.store == s
    ensures e.outcome.Fail? ==>
      && e.outcome.error.code == TooManyRequests
      && e.outcome.error.message != ""
      && Some(e.outcome.error.message) == CheckRateLimit(s, now, identifier, config).result.errorMessage
    ensures e.outcome.Pass? ==> e.store == UpdateRateLimit(s, now, identifier, config, metadata)
  {
    var checked := CheckRateLimit(s, now, identifier, config);
    if !checked.result.allowed then
      var message :=
        if checked.result.errorMessage.Some? && checked.result.errorMessage.value != "" then checked.result.errorMessage.value
        else "Rate limit exceeded";
      Enforced(Fail(ActionError(TooManyRequests, message)), checked.store)
    else
      KvStore.PutAfterGet(s, Key(config.keyPrefix, identifier), now, NewRecord(now, metadata), Some(config.windowMs));
      Enforced(Pass, UpdateRateLimit(checked.store, now, identifier, config, metadata))
  }

  /** The four policies of `RATE_LIMIT_CONFIGS`. */
  datatype Preset = ContactEmail | ContactIp | SignupEmail | SignupIp

  function PresetPrefix(p: Preset): (prefix: string)
    ensures ':' !in prefix
  {
    match p
    case ContactEmail => "contact_email_rate_limit"
    case ContactIp => "contact_ip_rate_limit"
    case SignupEmail => "signup_email_rate_limit"
    case SignupIp => "signup_ip_rate_limit"
  }

  function PresetWindowMinutes(p: Preset): (minutes: nat)
    ensures minutes > 0
  {
    match p
    case ContactEmail => 5
    case ContactIp => 2
    case SignupEmail => 10
    case SignupIp => 5
  }

  function PresetMessage(p: Preset): (message: string)
    ensures message != ""
  {
    match p
    case ContactEmail => "You can only send one message every 5 minutes. Please wait before sending another message."
    case ContactIp => "Too many contact requests from your location. Please wait before trying again."
    case SignupEmail => "You can only sign up once every 10 minutes. Please wait before trying again."
    case SignupIp => "Too many signup requests from your location. Please wait before trying again."
  }

  /**
   * A preset's policy: a positive whole number of minutes, a colon-free
   * prefix, and a configured message, so its denials never fall
   * back to the generated one.
   */
  function PresetConfig(p: Preset): (c: Config)
    ensures c.windowMs > 0 && c.windowMs % MsPerMinute == 0
    ensures ':' !in c.keyPrefix
    ensures c.errorMessage.Some? && c.errorMessage.value != ""
  {
    Config(PresetWindowMinutes(p) * MsPerMinute, PresetPrefix(p), Some(PresetMessage(p)))
  }

  /** No two presets share a key prefix. */
  lemma PresetPrefixesDistinct(p: Preset, q: Preset)
    ensures p != q ==> PresetConfig(p).keyPrefix != PresetConfig(q).keyPrefix
  {
  }
}

=== FILE: scenarios.dfy ===
/**
 * The limiter's documented scenarios, replayed on an empty store from
 * any non-negative start instant `t0` with the five-minute test policy.
 */
module RateLimiterScenarios {
  import opened Wrappers
  import KvStore
  import opened RateLimiter
  import Numerals
  import opened RateLimiterProperties

  const TestConfig := Config(5 * MsPerMinute, "test_rate_limit", Some("Test rate limit exceeded"))
  const NoMessageConfig := TestConfig.(errorMessage := None)
  const Email := "test@example.com"
  const Empty: Store := map[]

  /** The metadata the test suite attaches to a submission. */
  const TestMetadata: Record := map["contactId" := Opaque("123"), "source" := Opaque("test")]

  lemma FirstRequestAllowed(t0: int)
    ensures CheckRateLimit(Empty, t0, Email, TestConfig) == Checked(Allowed, Empty)
  {
  }

  /** Three minutes into a five-minute window: two minutes left, configured message. */
  lemma BlockedWithinWindow(t0: int)
    requires 0 <= t0
    ensures var s1 := UpdateRateLimit(Empty, t0, Email, TestConfig, map[]);
      CheckRateLimit(s1, t0 + 3 * MsPerMinute, Email, TestConfig).result
        == RateLimitResult(false, Some(2), Some("Test rate limit exceeded"))
  {
  }

  /** Six minutes into a five-minute window the request is allowed again. */
  lemma AllowedAfterWindow(t0: int)
    requires 0 <= t0
    ensures var s1 := UpdateRateLimit(Empty, t0, Email, TestConfig, map[]);
      CheckRateLimit(s1, t0 + 6 * MsPerMinute, Email, TestConfig).result.allowed
  {
  }

  lemma MessageForThree()
    ensures DefaultMessage(3) == "Please wait 3 minutes before trying again."
  {
    var digits, tail := Numerals.Show(3), MinutesTail(3);
    assert digits == "3";
    assert tail == " minutes before trying again.";
    assert DefaultMessage(3) == "Please wait " + digits + tail;
    ThreeMinutesLiteral();
  }

  /** Joins the three literals of the three-minute message; kept apart so the solver compares them alone. */
  lemma ThreeMinutesLiteral()
    ensures "Please wait " + "3" + " minutes before trying again." == "Please wait 3 minutes before trying again."
  {
  }

  lemma MessageForOne()
    ensures DefaultMessage(1) == "Please wait 1 minute before trying again."
  {
  }

  /** With no configured message, two minutes in: "3 minutes". */
  lemma PluralMessageScenario(t0: int)
    requires 0 <= t0
    ensures var s1 := UpdateRateLimit(Empty, t0, Email, NoMessageConfig, map[]);
      CheckRateLimit(s1, t0 + 2 * MsPerMinute, Email, NoMessageConfig).result.errorMessage
        == Some("Please wait 3 minutes before trying again.")
  {
    var s1 := UpdateRateLimit(Empty, t0, Email, NoMessageConfig, map[]);
    var r := CheckRateLimit(s1, t0 + 2 * MsPerMinute, Email, NoMessageConfig).result;
    UpdateThenCheck(Empty, t0, Email, NoMessageConfig, map[], t0 + 2 * MsPerMinute);
    assert CeilMinutes(3 * MsPerMinute) == 3;
    assert r.remainingMinutes == Some(3);
    assert r.errorMessage == Some(DenialMessage(NoMessageConfig, 3));
    MessageForThree();
  }

  /** With no configured message, four and a half minutes in: "1 minute". */
  lemma SingularMessageScenario(t0: int)
    requires 0 <= t0
    ensures var s1 := UpdateRateLimit(Empty, t0, Email, NoMessageConfig, map[]);
      CheckRateLimit(s1, t0 + 270000, Email, NoMessageConfig).result.errorMessage
        == Some("Please wait 1 minute before trying again.")
  {
    var s1 := UpdateRateLimit(Empty, t0, Email, NoMessageConfig, map[]);
    var r := CheckRateLimit(s1, t0 + 270000, Email, NoMessageConfig).result;
    UpdateThenCheck(Empty, t0, Email, NoMessageConfig, map[], t0 + 270000);
    assert CeilMinutes(30000) == 1;
    assert r.remainingMinutes == Some(1);
    assert r.errorMessage == Some(DenialMessage(NoMessageConfig, 1));
    MessageForOne();
  }

  /** The stored record holds the timestamp and the caller's metadata. */
  lemma UpdateStoresMetadata(t0: int)
    requires 0 <= t0
    ensures var s1 := UpdateRateLimit(Empty, t0, Email, TestConfig, TestMetadata);
      var got := KvStore.Get(s1, "test_rate_limit:test@example.com", t0).value;
      && got.Some?
      && LastSubmission(got.value) == Some(t0)
      && got.value["contactId"] == Opaque("123")
      && got.value["source"] == Opaque("test")
  {
    var metadata := TestMetadata;
    assert "timestamp" !in metadata;
    var s1 := UpdateRateLimit(Empty, t0, Email, TestConfig, metadata);
    TestKey();
    var key := Key(TestConfig.keyPrefix, Email);
    var rec := s1[key].value;
    assert LastSubmission(rec) == Some(t0);
    assert rec["contactId"] == Opaque("123") && rec["source"] == Opaque("test");
    assert s1[key].expiry == Some(t0 + TestConfig.windowMs);
    assert KvStore.Get(s1, key, t0).value == Some(rec);
  }

  lemma TestKey()
    ensures Key(TestConfig.keyPrefix, Email) == "test_rate_limit:test@example.com"
  {
  }

  /** The record lives one window: present a second before expiry, gone a second after. */
  lemma RecordTimeToLive(t0: int)
    requires 0 <= t0
    ensures var s1 := UpdateRateLimit(Empty, t0, Email, TestConfig, map[]);
      var g1 := KvStore.Get(s1, "test_rate_limit:test@example.com", t0 + 299000);
      && g1.value.Some?
      && KvStore.Get(g1.store, "test_rate_limit:test@example.com", t0 + 301000).value == None
  {
    TestKey();
    var key := Key(TestConfig.keyPrefix, Email);
    var s1 := UpdateRateLimit(Empty, t0, Email, TestConfig, map[]);
    assert s1 == KvStore.Put(Empty, key, NewRecord(t0, map[]), Some(TestConfig.windowMs), t0);
    KvStore.GetAfterPut(Empty, key, NewRecord(t0, map[]), TestConfig.windowMs, t0, t0 + 299000);
    var g1 := KvStore.Get(s1, key, t0 + 299000);
    assert g1.store == s1;
    KvStore.GetAfterPut(Empty, key, NewRecord(t0, map[]), TestConfig.windowMs, t0, t0 + 301000);
  }

  /** A second enforce at the same instant throws `TOO_MANY_REQUESTS` with the configured message. */
  lemma SecondEnforceThrows(t0: int)
    requires 0 <= t0
    ensures var e1 := EnforceRateLimit(Empty, t0, Email, TestConfig, map[]);
      && e1.outcome.Pass?
      && EnforceRateLimit(e1.store, t0, Email, TestConfig, map[]).outcome
        == Fail(ActionError(TooManyRequests, "Test rate limit exceeded"))
  {
  }

  /** Enforcing one identifier leaves another free, and the first stays blocked. */
  lemma IdentifiersIndependent(t0: int)
    requires 0 <= t0
    ensures var e1 := EnforceRateLimit(Empty, t0, "user1@example.com", TestConfig, map[]);
      var e2 := EnforceRateLimit(e1.store, t0, "user2@example.com", TestConfig, map[]);
      && e2.outcome.Pass?
      && EnforceRateLimit(e2.store, t0, "user1@example.com", TestConfig, map[]).outcome.Fail?
  {
    var e1 := EnforceRateLimit(Empty, t0, "user1@example.com", TestConfig, map[]);
    assert ':' !in TestConfig.keyPrefix;
    KeyInjective(TestConfig.keyPrefix, "user1@example.com", TestConfig.keyPrefix, "user2@example.com");
    EnforceIndependent(Empty, t0, "user1@example.com", TestConfig, map[], t0, "user2@example.com", TestConfig);
    var e2 := EnforceRateLimit(e1.store, t0, "user2@example.com", TestConfig, map[]);
    assert e2.outcome.Pass?;
    EnforceWindow(Empty, t0, "user1@example.com", TestConfig, map[], t0, map[]);
    EnforceIndependent(e1.store, t0, "user2@example.com", TestConfig, map[], t0, "user1@example.com", TestConfig);
  }

  /** The same identifier under two prefixes is throttled separately. */
  lemma PrefixesIndependent(t0: int)
    requires 0 <= t0
    ensures var e1 := EnforceRateLimit(Empty, t0, Email, TestConfig.(keyPrefix := "prefix1"), map[]);
      EnforceRateLimit(e1.store, t0, Email, TestConfig.(keyPrefix := "prefix2"), map[]).outcome.Pass?
  {
    var c1, c2 := TestConfig.(keyPrefix := "prefix1"), TestConfig.(keyPrefix := "prefix2");
    KeyInjective("prefix1", Email, "prefix2", Email);
    EnforceIndependent(Empty, t0, Email, c1, map[], t0, Email, c2);
  }

  /** A six-second window: blocked at once, free again seven seconds later. */
  lemma ShortWindow(t0: int)
    requires 0 <= t0
    ensures var short := TestConfig.(windowMs := 6000);
      var e1 := EnforceRateLimit(Empty, t0, Email, short, map[]);
      var e2 := EnforceRateLimit(e1.store, t0, Email, short, map[]);
      && e1.outcome.Pass?
      && e2.outcome.Fail?
      && EnforceRateLimit(e2.store, t0 + 7000, Email, short, map[]).outcome.Pass?
  {
  }

  /** The preset table's windows: 5, 2, 10 and 5 minutes. */
  lemma PresetWindows()
    ensures PresetConfig(ContactEmail).windowMs == 5 * MsPerMinute
    ensures PresetConfig(ContactIp).windowMs == 2 * MsPerMinute
    ensures PresetConfig(SignupEmail).windowMs == 10 * MsPerMinute
    ensures PresetConfig(SignupIp).windowMs == 5 * MsPerMinute
  {
  }

  /** The preset table's key prefixes. */
  lemma PresetPrefixes()
    ensures PresetConfig(ContactEmail).keyPrefix == "contact_email_rate_limit"
    ensures PresetConfig(ContactIp).keyPrefix == "contact_ip_rate_limit"
    ensures PresetConfig(SignupEmail).keyPrefix == "signup_email_rate_limit"
    ensures PresetConfig(SignupIp).keyPrefix == "signup_ip_rate_limit"
  {
  }

  /** The preset table's configured messages. */
  lemma PresetMessages()
    ensures PresetConfig(ContactEmail).errorMessage
      == Some("You can only send one message every 5 minutes. Please wait before sending another message.")
    ensures PresetConfig(ContactIp).errorMessage
      == Some("Too many contact requests from your location. Please wait before trying again.")
    ensures PresetConfig(SignupEmail).errorMessage
      == Some("You can only sign up once every 10 minutes. Please wait before trying again.")
    ensures PresetConfig(SignupIp).errorMessage
      == Some("Too many signup requests from your location. Please wait before trying again.")
  {
  }
}

=== FILE: wrappers.dfy ===
/** Optional values and call outcomes shared by the store and the limiter. */
module Wrappers {

  /** A value that may be absent: a JavaScript `null` / `undefined`. */
  datatype Option<+T> = None | Some(value: T)

  /** The outcome of a call that returns nothing on success and throws on failure. */
  datatype Outcome<+E> = Pass | Fail(error: E)
}
